=== FILE: README.md ===
# Wake-on-IR bridge: a Dafny model of its decision logic

The bridge listens on a Linux host for an infrared remote's power key
(`linux/wake_on_ir.py`). When the key is pressed it pulses a buzzer, pings
the Windows machine, and then does one of two things. If Windows answers,
it sends a `shutdowntangguo` UDP datagram, waits 10 s and switches the
projector off over serial. If Windows does not answer, it sends a
Wake-on-LAN packet and switches the projector on. A companion script on
Windows (`windows/listener.py`) powers the machine off for every datagram
that contains `shutdown`.

This project models the pure decisions inside that plumbing, in six modules:

- `Seqs` (`seqs.dfy`): shared sequence vocabulary. It defines counting by
  a predicate (`Count`) and its index-set reading (`Indices`), first-match
  search (`FirstIndex`, `FirstMatch`), and Python's `needle in haystack`
  for strings and bytes (`Contains`).
- `Text` (`text.dfy`): the `byte` type and the ASCII part of `str.lower`.
- `Discovery` (`discovery.dfy`): `find_input_device` and
  `find_serial_device` as first-match, case-insensitive searches over a
  given candidate list. Also the `or "<default>"` fallbacks of `main`.
- `Liveness` (`liveness.dfy`): `is_windows_running`, computed from the
  ping output lines, or from the fact that the probe raised.
- `Orchestrator` (`orchestrator.dfy`): the loop body as a trace of log
  lines and actuator calls (`Plan`). The actuators' catch-everything
  wrappers (`Perform`), the `read_loop` loop (`Run`) and `main` (`Main`)
  are modelled too.
- `Listener` (`listener.dfy`): the Windows receive loop, and how it
  connects to what the Linux side sends.

Actuators are abstract tokens:
`Buzz(500, port)`, `SendShutdown`, `Delay(10000)`, `SerialSend(cmd, port)`
and `Wake`. Durations are in milliseconds. Several things are parameters
rather than effects: the probe's output, which actuator calls throw (a
set of positions in the plan), whether the input device opens, the event
stream, and the received datagrams.

Three facts about the code shape the model:

- The liveness rule counts output LINES that contain `bytes from` or
  `来自`, not probes that were answered. Duplicate replies therefore count
  too.
- The Wake-on-LAN packet is built by the external `wakeonlan` library. The
  model only records that it is sent.
- A failing input device does not end the process directly. The exception
  is caught by `main`'s outer `try`, which logs and returns (`LoopExited`).

## Model

| member | source | states |
|---|---|---|
| Orchestrator.PlanActions | linux/wake_on_ir.py:143-157 | An event that is not an `EV_KEY` key-down gives an empty trace: no log line, no call. Another key-down gives only its log line. Power key with Windows up: the calls are exactly buzzer(0.5 s), shutdown datagram, 10 s delay, projector off. Power key with Windows down: exactly buzzer, wake packet, projector on. |
| Orchestrator.PlanBranches | linux/wake_on_ir.py:144-157 | In both directions: some call is made iff the event is a power-key down. The shutdown datagram is sent iff the key went down and Windows answered. The wake packet is sent iff the key went down and Windows did not. Projector-off appears iff shutdown does, and projector-on iff wake does. So the two branches never mix. |
| Orchestrator.ProjectorFrames | linux/wake_on_ir.py:18-19 | The ON and OFF frames are 8 bytes each and equal except at index 6 (0x31 vs 0x30). |
| Orchestrator.PerformKeepsActions | linux/wake_on_ir.py:94-127 | Each actuator catches its own exceptions. So whichever actuators throw, the calls made are exactly the planned calls, in the planned order. |
| Orchestrator.PerformReportsEveryCall | linux/wake_on_ir.py:94-127 | Counted over the whole plan: the outcome lines equal the guarded calls, one each, whichever actuators throw. The sleep is not guarded and writes none. |
| Orchestrator.PerformAt | linux/wake_on_ir.py:94-127 | Position by position: each planned step appears in the trace after the earlier steps and their outcome lines. A guarded call is followed at once by its failure line when its position raises (the `except` branches at 99-100, 106-107, 116-117, 126-127), and by its success line otherwise. |
| Orchestrator.PerformLength | linux/wake_on_ir.py:94-127 | The performed trace holds nothing beyond the planned steps and one outcome line per guarded call: its length is the planned steps plus the guarded calls. |
| Orchestrator.RunAppend | linux/wake_on_ir.py:143-157 | The loop handles events one at a time, each to completion, and goes on after every one of them. The trace of a stream is the trace of a prefix followed by the trace of the rest. |
| Orchestrator.RunStopsAtReadFailure | linux/wake_on_ir.py:139-160 | An exception from the input device ends the loop with a single log line, and later events have no effect. |
| Orchestrator.IgnoredEventWritesNothing | linux/wake_on_ir.py:144 | An event that is not a key press leaves the handled trace empty: no log line and no call, whichever actuators would throw. |
| Orchestrator.RunIsOrderly | linux/wake_on_ir.py:148-157 | Over any number of events, the projector is switched off only right after the shutdown call and the full 10 s delay. Every wake call is followed at once by switching the projector on. |
| Orchestrator.StartNeverReportsMissingDevice | linux/wake_on_ir.py:134-141 | With a non-empty input path the "input device not found, exit" line never appears. When the device opens, the listener starts on that path. |
| Orchestrator.MainNeverReportsMissingDevice | linux/wake_on_ir.py:130-141 | The "input device not found, exit" line never appears, whatever is connected, because the resolved input path is never empty. |
| Discovery.FindInputDevice | linux/wake_on_ir.py:30-54 | None iff no readable candidate's name contains the keyword, case-insensitively. Otherwise the path of the first readable candidate that matches. |
| Discovery.ScanInputDevices | linux/wake_on_ir.py:36-54 | The loop with its `except` skip and early `return` computes the same answer as the first-match search. |
| Discovery.UnreadableSkipped | linux/wake_on_ir.py:36-46 | An unreadable device anywhere in the enumeration does not change the answer. The scan goes on past it. |
| Discovery.FindSerialDevice | linux/wake_on_ir.py:56-82 | None iff no port's info line contains the keyword, case-insensitively. Otherwise the device of the first port that matches. |
| Discovery.InputKeywordCaseIrrelevant | linux/wake_on_ir.py:40 | Both sides are lower-cased, so a keyword and its lower-case spelling find the same input device. |
| Discovery.SerialKeywordCaseIrrelevant | linux/wake_on_ir.py:71 | The same for the serial search: a keyword and its lower-case spelling find the same port. |
| Discovery.Resolve | linux/wake_on_ir.py:131-133 | All three paths are non-empty. Each is the discovered path when discovery found a non-empty one, and the static default when it found none. |
| Text.LowerIdempotent | linux/wake_on_ir.py:71 | Lower-casing twice equals lower-casing once. Matching with a lower-cased keyword equals matching with the keyword. |
| Liveness.IsWindowsRunning | linux/wake_on_ir.py:85-92 | True iff the probe ran and at least 3 output lines (counted by position, so repeated lines count again) contain `bytes from` or `来自`. False when the probe raised. |
| Liveness.CountReplies | linux/wake_on_ir.py:88 | The counting loop returns the number of reply lines. |
| Liveness.BothMarkersCountOnce | linux/wake_on_ir.py:88 | A line that carries both markers counts as one reply. |
| Liveness.MoreRepliesStayUp | linux/wake_on_ir.py:88-89 | Extra output lines never turn "running" into "not running". |
| Listener.PowerOffPerMatchingDatagram | windows/listener.py:12-16 | The loop continues after each datagram that fits the 1024-byte receive. So the number of power-off calls equals the number of received datagrams that contain `shutdown`. |
| Listener.MarkerAnywhereTriggers | windows/listener.py:14-16 | A payload with `shutdown` anywhere in it gets the announcement and one power-off. |
| Listener.UpperCaseIgnored | windows/listener.py:14 | The byte match is case-sensitive: `SHUTDOWN` does not trigger. |
| Listener.SenderPayloadTriggers | linux/wake_on_ir.py:97 | The sender's `shutdowntangguo` goes to UDP port 4000, the port the listener binds (windows/listener.py:5), fits in one 1024-byte receive and contains the listener's marker. |
| Listener.SenderSatisfiesListener | windows/listener.py:14 | Any payload that contains the sender's marker also triggers the listener. |
| Orchestrator.PerformShutdownOutcomes | linux/wake_on_ir.py:94-100 | Counted over the whole plan: the success lines (written only after `sendto` returned) plus the failure lines equal the shutdown calls. With no actuator throwing, no failure line appears. The per-call placement of each line is Orchestrator.PerformAt. |
| Orchestrator.RunShutdownOutcomes | linux/wake_on_ir.py:143-157 | Over any run of the loop, the shutdown calls made equal the successful ones plus the failed ones. When no actuator throws, none fails. |
| Orchestrator.PerformShutdownPositions | linux/wake_on_ir.py:94-100 | In any plan, the success lines of the shutdown call are one per shutdown call at a position that does not raise, and its failure lines one per shutdown call at a position that does. |
| Orchestrator.ShutdownPositionSets | linux/wake_on_ir.py:94-100 | The same two numbers are the sizes of the sets of plan positions holding a shutdown call that does not raise, and one that does. |
| Orchestrator.RunShutdownPositions | linux/wake_on_ir.py:143-157 | Over any run of the loop, success lines equal the shutdown calls at non-raising positions across all handled events, and failure lines equal those at raising positions. |
| Listener.DatagramsAreSuccessfulSends | linux/wake_on_ir.py:94-100 | The datagrams on the wire are exactly one `shutdowntangguo` per success line of the shutdown call, written only after `sendto` returned. |
| Listener.FailedShutdownSendsNothing | linux/wake_on_ir.py:94-100 | In any plan, a shutdown call that throws puts nothing on the wire: the datagrams sent are one per shutdown call at a position that does not raise. |
| Listener.EveryShutdownPowersOff | windows/listener.py:12-16 | If every datagram on the wire is delivered, then over any run of the Linux loop Windows powers off once per shutdown call at a position that does not raise. That is the shutdown calls minus the failed ones, and every shutdown call when no actuator throws. |

## Left out

- Writing to the log file: the loop's and the actuators' log lines are trace tokens (`Log(...)`), with no timestamps or wording.
- Discovery's log lines: the "found" line for a matching input device (linux/wake_on_ir.py:41-42) or serial port (72-73), the "skipped" line for each unreadable input device (44-46), and the "not found" header, candidate listing and hint (48-52, 76-80). `Main`'s trace starts after resolution, and `FindInputDevice`/`FindSerialDevice` return only the path. These lines never influence a decision.
- Sockets, the serial ports, `ping` and `os.system("shutdown /s /t 0")`: I/O. Only their abstract effect is modelled, as action tokens, or as inputs (the probe's output, which actuators throw).
- The Wake-on-LAN packet layout: it is built inside the external `wakeonlan` library, which is not part of this model.
- `time.sleep` durations: kept as numbers in `Buzz` and `Delay`, with no timing semantics. The 0.1 s settle and the 16-byte response read inside `send_serial` are internal to that actuator. The response is only logged and never influences a decision.
- evdev and pyserial enumeration and `read_loop` blocking: the candidates, ports and event stream are given as sequences. Formatting of the VID/PID/serial-number info line is not modelled: that line is an opaque string.
- `str.splitlines`: the probe output is given as lines already.
- Text.Lower: only ASCII letters are lower-cased. Python's `str.lower` also maps non-ASCII letters, and the keywords and markers used here are ASCII.
- The `recvfrom(1024)` limit: the model takes the payloads as received. On Windows a datagram longer than 1024 bytes makes `recvfrom` raise, and windows/listener.py:12-16 has no `try`, so the listener would end and handle no later datagram. The sender's own payload is shown to fit (Listener.SenderPayloadTriggers).
- Listener.PowerOffPerMatchingDatagram: it describes a stream of datagrams that each fit in 1024 bytes. An oversized datagram would end the real listener, and the count would then stop there.
- Discovery.Resolve: both serial searches read the same `ports` sequence. The code calls `comports()` afresh for each search (linux/wake_on_ir.py:57, reached from lines 132 and 133), so a port plugged in or removed between the two calls is not modelled.
- Orchestrator.PerformReportsEveryCall: assumes closing the serial port never raises. `send_serial` writes its success line inside the `with` block (linux/wake_on_ir.py:111-115). If `ser.close()` in `__exit__` then raises, line 117 adds a failure line too, so that call writes two outcome lines. The same holds for `buzzer`, whose success line comes after the `with` (125), so a raising close gives only the failure line there.
- Orchestrator.PerformAt: assumes the same. A raising close in `send_serial` puts the success line right after the call and the failure line after that, not the failure line alone. `raised` stands for an exception before the actuator's success line only.
- Listener.DatagramsAreSuccessfulSends: assumes closing the UDP socket never raises. In `send_shutdown_packet` the datagram is on the wire once `sendto` returns (linux/wake_on_ir.py:97). If the socket's close in `__exit__` (96) then raises, only the failure line is written (100), and the model counts no datagram for it.
- Listener.FailedShutdownSendsNothing: assumes the same. A shutdown call that raises only while closing its socket has already sent its datagram.
- Listener.EveryShutdownPowersOff: assumes the same. Such a call would still power Windows off, one more than the non-raising shutdown positions.
- `log` raising: the model assumes writing the log file never fails. In the code, a `log` call that raises inside an actuator's `try` (for example linux/wake_on_ir.py:98 or 125) raises again from its `except` handler (100, 127) and escapes the actuator. `main`'s handler at 160 would then raise too and end the process. Orchestrator.PerformKeepsActions and the other fail-soft lemmas hold only while logging works.
- An exception raised by `list_devices()` (linux/wake_on_ir.py:36): it happens during startup, outside `main`'s `try`, and would end the process. It is not modelled.
- An exception raised by the serial-port enumeration during startup: it happens outside `main`'s `try` and would end the process. It is not modelled.

=== FILE: discovery.dfy ===
/** Device discovery in `linux/wake_on_ir.py`: the first candidate whose
    name (input devices) or composed info line (serial ports) contains a
    keyword, compared case-insensitively, and the static path used when no
    candidate matches. Enumeration by evdev and pyserial is given as a
    sequence of candidates. */
module Discovery {
  import opened Seqs
  import opened Text

  /** One path from `list_devices()`: either `InputDevice(path)` opened and
      reported a name, or it raised and the path is skipped. */
  datatype InputCandidate = Readable(path: string, name: string) | Unreadable(path: string)

  /** One entry of `comports()`: its device path and the
      `"device | desc | man | prod | VID:… PID:… SN:…"` line built from it. */
  datatype PortInfo = PortInfo(device: string, info: string)

  /** The three resolved paths `main` works with. */
  datatype Setup = Setup(devicePath: string, projectorPort: string, buzzerPort: string)

  const INPUT_KEYWORD: string := "flirc"
  const PROJECTOR_KEYWORD: string := "067B"
  const BUZZER_KEYWORD: string := "1A86"
  const DEFAULT_INPUT_PATH: string := "/dev/input/event5"
  const DEFAULT_PROJECTOR_PORT: string := "/dev/ttyUSB0"
  const DEFAULT_BUZZER_PORT: string := "/dev/ttyUSB2"

  predicate InputMatches(keyword: string, c: InputCandidate)
  {
    c.Readable? && ContainsIgnoringCase(c.name, keyword)
  }

  predicate PortMatches(keyword: string, p: PortInfo)
  {
    ContainsIgnoringCase(p.info, keyword)
  }

  /** The test `find_input_device` applies to each candidate. */
  function InputMatcher(keyword: string): InputCandidate -> bool
  {
    c => InputMatches(keyword, c)
  }

  /** The test `find_serial_device` applies to each port. */
  function PortMatcher(keyword: string): PortInfo -> bool
  {
    q => PortMatches(keyword, q)
  }

  /** `find_input_device`: the path of the first readable candidate whose
      name contains the keyword; unreadable candidates never stop the scan. */
  function FindInputDevice(keyword: string, cands: seq<InputCandidate>): (r: Option<string>)
    ensures r.None? <==> forall i | 0 <= i < |cands| :: !InputMatches(keyword, cands[i])
    ensures r.Some? ==>
      exists i | 0 <= i < |cands| ::
        && cands[i].path == r.value
        && InputMatches(keyword, cands[i])
        && forall j | 0 <= j < i :: !InputMatches(keyword, cands[j])
  {
    match FirstMatch(cands, InputMatcher(keyword))
    case None => None
    case Some(c) =>
      assert exists i :: IsFirstMatch(cands, InputMatcher(keyword), i) && cands[i] == c;
      Some(c.path)
  }

  /** `find_serial_device`: the device of the first port whose info line
      contains the keyword. */
  function FindSerialDevice(keyword: string, ports: seq<PortInfo>): (r: Option<string>)
    ensures r.None? <==> forall i | 0 <= i < |ports| :: !PortMatches(keyword, ports[i])
    ensures r.Some? ==>
      exists i | 0 <= i < |ports| ::
        && ports[i].device == r.value
        && PortMatches(keyword, ports[i])
        && forall j | 0 <= j < i :: !PortMatches(keyword, ports[j])
  {
    match FirstMatch(ports, PortMatcher(keyword))
    case None => None
    case Some(q) =>
      assert exists i :: IsFirstMatch(ports, PortMatcher(keyword), i) && ports[i] == q;
      Some(q.device)
  }

  /** An unreadable device anywhere in the enumeration is skipped: the
      search answers as if it were not there. */
  lemma UnreadableSkipped(keyword: string, a: seq<InputCandidate>, path: string, b: seq<InputCandidate>)
    ensures FindInputDevice(keyword, a + [Unreadable(path)] + b) == FindInputDevice(keyword, a + b)
  {
    FirstMatchSkips(a, Unreadable(path), b, InputMatcher(keyword));
  }

  /** The `for path in list_devices()` loop itself: a candidate whose
      `InputDevice(path)` raised is passed over as the `except` branch does,
      and the first match returns at once. */
  method ScanInputDevices(keyword: string, cands: seq<InputCandidate>) returns (r: Option<string>)
    ensures r == FindInputDevice(keyword, cands)
  {
    var k := 0;
    while k < |cands|
      invariant 0 <= k <= |cands|
      invariant forall j | 0 <= j < k :: !InputMatches(keyword, cands[j])
    {
      var c := cands[k];
      if c.Readable? && ContainsIgnoringCase(c.name, keyword) {
        return Some(c.path);
      }
      k := k + 1;
    }
    return None;
  }

  /** Both sides are lower-cased before comparing, so the spelling of the
      keyword's letters does not matter: "FLIRC" finds what "flirc" finds. */
  lemma InputKeywordCaseIrrelevant(keyword: string, cands: seq<InputCandidate>)
    ensures FindInputDevice(Lower(keyword), cands) == FindInputDevice(keyword, cands)
  {
    LowerIdempotent(keyword);
    FirstIndexAgree(cands, InputMatcher(Lower(keyword)), InputMatcher(keyword));
  }

  /** The same for the serial search: "067B" finds what "067b" finds. */
  lemma SerialKeywordCaseIrrelevant(keyword: string, ports: seq<PortInfo>)
    ensures FindSerialDevice(Lower(keyword), ports) == FindSerialDevice(keyword, ports)
  {
    LowerIdempotent(keyword);
    FirstIndexAgree(ports, PortMatcher(Lower(keyword)), PortMatcher(keyword));
  }

  /** Python's `found or fallback`: `None` and the empty string are both
      falsy and give the fallback. */
  function OrElse(found: Option<string>, fallback: string): string
  {
    if found.Some? && found.value != "" then found.value else fallback
  }

  /** Lines 131-133 of `main`: each path is the discovered one when
      discovery found a non-empty one, else the static default. None of the
      three can be empty, so the "no input device, exit" branch that
      follows is dead. */
  function Resolve(inputs: seq<InputCandidate>, ports: seq<PortInfo>): (s: Setup)
    ensures s.devicePath != "" && s.projectorPort != "" && s.buzzerPort != ""
    ensures FindInputDevice(INPUT_KEYWORD, inputs).None? ==> s.devicePath == DEFAULT_INPUT_PATH
    ensures forall d :: FindInputDevice(INPUT_KEYWORD, inputs) == Some(d) && d != "" ==> s.devicePath == d
    ensures FindSerialDevice(PROJECTOR_KEYWORD, ports).None? ==> s.projectorPort == DEFAULT_PROJECTOR_PORT
    ensures forall d :: FindSerialDevice(PROJECTOR_KEYWORD, ports) == Some(d) && d != "" ==> s.projectorPort == d
    ensures FindSerialDevice(BUZZER_KEYWORD, ports).None? ==> s.buzzerPort == DEFAULT_BUZZER_PORT
    ensures forall d :: FindSerialDevice(BUZZER_KEYWORD, ports) == Some(d) && d != "" ==> s.buzzerPort == d
  {
    Setup(
      OrElse(FindInputDevice(INPUT_KEYWORD, inputs), DEFAULT_INPUT_PATH),
      OrElse(FindSerialDevice(PROJECTOR_KEYWORD, ports), DEFAULT_PROJECTOR_PORT),
      OrElse(FindSerialDevice(BUZZER_KEYWORD, ports), DEFAULT_BUZZER_PORT))
  }
}

=== FILE: listener.dfy ===
/** `windows/listener.py`: a UDP receive loop on port 4000 that powers the
    machine off for every datagram containing the bytes `shutdown`. The
    socket is not modelled; the received payloads arrive as a sequence. */
module Listener {
  import opened Seqs
  import opened Text
  import Orchestrator

  const LISTEN_PORT: nat := 4000
  /** The `bufsize` passed to `recvfrom`. */
  const RECV_BUFFER: nat := 1024
  /** `b"shutdown"`. */
  const SHUTDOWN_MARKER: seq<byte> := [0x73, 0x68, 0x75, 0x74, 0x64, 0x6F, 0x77, 0x6E]
  /** `b"SHUTDOWN"`. */
  const SHUTDOWN_UPPER: seq<byte> := [0x53, 0x48, 0x55, 0x54, 0x44, 0x4F, 0x57, 0x4E]

  /** The test `b"shutdown" in data`: exact, case-sensitive bytes anywhere. */
  predicate Triggers(data: seq<byte>)
  {
    Contains(data, SHUTDOWN_MARKER)
  }

  /** What the loop does for one datagram: a console line, then the
      `shutdown /s /t 0` call. */
  datatype Reaction = Announced | PoweredOff

  function React(data: seq<byte>): seq<Reaction>
  {
    if Triggers(data) then [Announced, PoweredOff] else []
  }

  /** The `while True` loop over the datagrams received, in order. */
  function Listen(payloads: seq<seq<byte>>): seq<Reaction>
  {
    if payloads == [] then [] else React(payloads[0]) + Listen(payloads[1..])
  }

  predicate IsPowerOff(r: Reaction)
  {
    r.PoweredOff?
  }

  /** The loop goes on after every datagram, so the machine is told to
      power off exactly once per datagram carrying the marker: as many
      times as there are such datagrams among those received. */
  lemma {:induction false} PowerOffPerMatchingDatagram(payloads: seq<seq<byte>>)
    ensures Count(Listen(payloads), IsPowerOff) == |Indices(payloads, Triggers)|
  {
    CountIsIndices(payloads, Triggers);
    PowerOffsCountTriggers(payloads);
  }

  lemma {:induction false} PowerOffsCountTriggers(payloads: seq<seq<byte>>)
    ensures Count(Listen(payloads), IsPowerOff) == Count(payloads, Triggers)
  {
    if payloads != [] {
      var d, rest := payloads[0], payloads[1..];
      PowerOffsCountTriggers(rest);
      CountAppend(React(d), Listen(rest), IsPowerOff);
      assert payloads == [d] + rest;
      CountAppend([d], rest, Triggers);
      assert [d][..0] == [];
      var r := React(d);
      if Triggers(d) {
        assert r[..1] == [Announced];
        assert r[..1][..0] == [];
      }
    }
  }

  /** A payload with the marker anywhere, whatever surrounds it, triggers. */
  lemma MarkerAnywhereTriggers(before: seq<byte>, after: seq<byte>)
    ensures Triggers(before + SHUTDOWN_MARKER + after)
    ensures React(before + SHUTDOWN_MARKER + after) == [Announced, PoweredOff]
  {
    ContainsSurrounded(before, SHUTDOWN_MARKER, after);
  }

  /** The test is on exact bytes: the upper-case spelling does not trigger. */
  lemma UpperCaseIgnored()
    ensures !Triggers(SHUTDOWN_UPPER)
    ensures React(SHUTDOWN_UPPER) == []
  {
    assert |SHUTDOWN_UPPER| - |SHUTDOWN_MARKER| == 0;
    assert SHUTDOWN_UPPER[0..8][0] != SHUTDOWN_MARKER[0];
    assert !InfixAt(SHUTDOWN_UPPER, SHUTDOWN_MARKER, 0);
  }

  /** The sender's `b'shutdowntangguo'` goes to the port the listener is
      bound to, fits in one `recvfrom` buffer and carries the listener's
      shorter marker. */
  lemma SenderPayloadTriggers()
    ensures Orchestrator.SHUTDOWN_UDP_PORT == LISTEN_PORT
    ensures |Orchestrator.SHUTDOWN_PAYLOAD| <= RECV_BUFFER
    ensures Triggers(Orchestrator.SHUTDOWN_PAYLOAD)
  {
    var tail := Orchestrator.SHUTDOWN_PAYLOAD[8..];
    ContainsSurrounded([], SHUTDOWN_MARKER, tail);
    assert [] + SHUTDOWN_MARKER + tail == Orchestrator.SHUTDOWN_PAYLOAD;
  }

  /** So does any payload that contains the sender's. */
  lemma SenderSatisfiesListener(before: seq<byte>, after: seq<byte>)
    ensures Triggers(before + Orchestrator.SHUTDOWN_PAYLOAD + after)
  {
    SenderPayloadTriggers();
    var p := Orchestrator.SHUTDOWN_PAYLOAD;
    ContainsSurrounded(before, p, after);
    ContainsTransitive(before + p + after, p, SHUTDOWN_MARKER);
  }

  /** The datagrams a trace of the Linux side puts on the wire: one for
      each shutdown call that got as far as its success line. A call that
      raised in the socket or in `sendto` sends nothing. */
  function Datagrams(trace: seq<Orchestrator.Step>): seq<seq<byte>>
  {
    if trace == [] then []
    else (if Orchestrator.IsShutdownSent(trace[0]) then [Orchestrator.SHUTDOWN_PAYLOAD] else [])
         + Datagrams(trace[1..])
  }

  /** End to end, with every datagram on the wire delivered: over any run
      of the Linux loop, Windows powers off once per shutdown call at a
      position that does not raise. That is every shutdown call minus the
      failed ones, and every shutdown call when no actuator throws. */
  lemma {:induction false} EveryShutdownPowersOff(inputs: seq<Orchestrator.Input>, ports: Orchestrator.Ports)
    ensures Count(Listen(Datagrams(Orchestrator.Run(inputs, ports))), IsPowerOff)
              == Count(Orchestrator.RunAttempts(inputs, ports), Orchestrator.IsKeptShutdown)
    ensures Count(Listen(Datagrams(Orchestrator.Run(inputs, ports))), IsPowerOff)
              + Count(Orchestrator.Run(inputs, ports), Orchestrator.IsShutdownLost)
            == Count(Orchestrator.Actions(Orchestrator.Run(inputs, ports)), Orchestrator.IsShutdownCall)
    ensures Orchestrator.NoActuatorFails(inputs) ==>
              Count(Listen(Datagrams(Orchestrator.Run(inputs, ports))), IsPowerOff)
              == Count(Orchestrator.Actions(Orchestrator.Run(inputs, ports)), Orchestrator.IsShutdownCall)
  {
    var trace := Orchestrator.Run(inputs, ports);
    PowerOffsCountTriggers(Datagrams(trace));
    DatagramsAllTrigger(trace);
    Orchestrator.RunShutdownOutcomes(inputs, ports);
    Orchestrator.RunShutdownPositions(inputs, ports);
  }

  /** The datagrams of a trace: one `shutdowntangguo` per success line of
      the shutdown call, and nothing else. */
  lemma {:induction false} DatagramsAreSuccessfulSends(trace: seq<Orchestrator.Step>)
    ensures |Datagrams(trace)| == Count(trace, Orchestrator.IsShutdownSent)
    ensures forall i | 0 <= i < |Datagrams(trace)| :: Datagrams(trace)[i] == Orchestrator.SHUTDOWN_PAYLOAD
  {
    if trace != [] {
      DatagramsAreSuccessfulSends(trace[1..]);
      CountFront(trace, Orchestrator.IsShutdownSent);
    }
  }

  /** Within any plan, a shutdown call that throws puts nothing on the
      wire: the datagrams sent are one per shutdown call at a position
      that does not raise (beyond any success lines already in the plan). */
  lemma FailedShutdownSendsNothing(plan: seq<Orchestrator.Step>, raises: set<nat>, at: nat)
    ensures |Datagrams(Orchestrator.Perform(plan, raises, at))|
              == Count(plan, Orchestrator.IsShutdownSent)
                 + |set k | 0 <= k < |plan| && plan[k] == Orchestrator.Do(Orchestrator.SendShutdown) && at + k !in raises|
  {
    DatagramsAreSuccessfulSends(Orchestrator.Perform(plan, raises, at));
    Orchestrator.PerformShutdownPositions(plan, raises, at);
    Orchestrator.ShutdownPositionSets(plan, raises, at);
  }

  /** Every datagram the Linux side sends triggers the listener. */
  lemma {:induction false} DatagramsAllTrigger(trace: seq<Orchestrator.Step>)
    ensures Count(Datagrams(trace), Triggers) == Count(trace, Orchestrator.IsShutdownSent)
  {
    if trace != [] {
      var s, rest := trace[0], trace[1..];
      var head: seq<seq<byte>> := if Orchestrator.IsShutdownSent(s) then [Orchestrator.SHUTDOWN_PAYLOAD] else [];
      DatagramsAllTrigger(rest);
      CountAppend(head, Datagrams(rest), Triggers);
      assert trace == [s] + rest;
      CountAppend([s], rest, Orchestrator.IsShutdownSent);
      assert [s][..0] == [];
      if Orchestrator.IsShutdownSent(s) {
        SenderPayloadTriggers();
        assert head[..0] == [];
      }
    }
  }
}

=== FILE: liveness.dfy ===
/** `is_windows_running` in `linux/wake_on_ir.py`: five pings to the
    Windows host, alive when at least three output lines are replies. The
    `ping` process is not run here; its output arrives as a value. */
module Liveness {
  import opened Seqs

  /** What `subprocess.run(['ping', ...])` gave: the lines of its standard
      output, or an exception (no `ping`, no permission, ...). */
  datatype ProbeOutput = Ran(lines: seq<string>) | Raised

  const REPLY_MARKER: string := "bytes from"
  const REPLY_MARKER_ZH: string := "来自"
  const REPLY_THRESHOLD: nat := 3

  /** A reply line, in the English or the Chinese locale of `ping`. */
  predicate IsReply(line: string)
  {
    Contains(line, REPLY_MARKER) || Contains(line, REPLY_MARKER_ZH)
  }

  /** Alive iff the probe ran and at least three output lines are
      replies; a probe that raised means "not running". */
  function IsWindowsRunning(probe: ProbeOutput): (up: bool)
    ensures up <==> probe.Ran? && |Indices(probe.lines, IsReply)| >= REPLY_THRESHOLD
  {
    match probe
    case Raised => false
    case Ran(lines) =>
      CountIsIndices(lines, IsReply);
      Count(lines, IsReply) >= REPLY_THRESHOLD
  }

  /** The generator `sum(1 for line in ... if ...)` as a loop. */
  method CountReplies(lines: seq<string>) returns (count: nat)
    ensures count == |Indices(lines, IsReply)|
  {
    count := 0;
    var k := 0;
    while k < |lines|
      invariant 0 <= k <= |lines|
      invariant count == Count(lines[..k], IsReply)
    {
      assert lines[..k + 1][..k] == lines[..k];
      if IsReply(lines[k]) {
        count := count + 1;
      }
      k := k + 1;
    }
    assert lines[..k] == lines;
    CountIsIndices(lines, IsReply);
  }

  /** A line carrying both markers is one reply, not two. */
  lemma BothMarkersCountOnce(line: string)
    requires Contains(line, REPLY_MARKER) && Contains(line, REPLY_MARKER_ZH)
    ensures Count([line], IsReply) == 1
  {
    assert [line][..0] == [];
  }

  /** More output can only keep a running host running. */
  lemma {:induction false} MoreRepliesStayUp(lines: seq<string>, more: seq<string>)
    requires IsWindowsRunning(Ran(lines))
    ensures IsWindowsRunning(Ran(lines + more))
  {
    CountIsIndices(lines, IsReply);
    CountIsIndices(lines + more, IsReply);
    CountAppend(lines, more, IsReply);
  }
}

=== FILE: orchestrator.dfy ===
/** The decision loop of `linux/wake_on_ir.py`: each key event from the
    remote's input device is turned into a trace of log lines and actuator
    calls. Actuators are abstract tokens; the probe's output, each
    actuator's success or failure, and the events themselves are inputs. */
module Orchestrator {
  import opened Seqs
  import opened Text
  import Liveness
  import Discovery

  // evdev's `ecodes.EV_KEY`, and key-down among values 0 (up), 1 (down), 2 (repeat).
  const EV_KEY: int := 1
  const KEY_DOWN: int := 1
  /** The remote's power key. */
  const TRIGGER_CODE: int := 99

  const BUZZ_MS: nat := 500
  /** Time given to Windows to shut down before the projector is switched off. */
  const SHUTDOWN_SETTLE_MS: nat := 10000

  /** Projector power frames. */
  const CMD_ON: seq<byte> := [0x7E, 0x30, 0x30, 0x30, 0x30, 0x20, 0x31, 0x0D]
  const CMD_OFF: seq<byte> := [0x7E, 0x30, 0x30, 0x30, 0x30, 0x20, 0x30, 0x0D]

  /** The datagram `send_shutdown_packet` sends to the Windows host,
      `b'shutdowntangguo'`. */
  const SHUTDOWN_PAYLOAD: seq<byte> :=
    [0x73, 0x68, 0x75, 0x74, 0x64, 0x6F, 0x77, 0x6E, 0x74, 0x61, 0x6E, 0x67, 0x67, 0x75, 0x6F]
  const SHUTDOWN_UDP_PORT: nat := 4000

  datatype KeyEvent = KeyEvent(kind: int, code: int, value: int)

  /** The serial ports the actuators talk to, resolved once at startup. */
  datatype Ports = Ports(projector: string, buzzer: string)

  /** Actuator calls and the deliberate sleep between them. */
  datatype Action =
    | Buzz(durationMs: nat, port: string)          // `buzzer(duration, port)`
    | SendShutdown                                 // `send_shutdown_packet()`
    | Delay(durationMs: nat)                       // `time.sleep(...)` in the loop
    | SerialSend(cmd: seq<byte>, port: string)     // `send_serial(cmd, port)`
    | Wake                                         // `send_wake_packet()`

  /** The log lines the loop and the actuators write. */
  datatype Note =
    | KeyReceived(code: int)
    | TriggerReceived
    | ProbeFailed
    | HostRunning
    | HostNotRunning
    | ActuatorDone(done: Action)
    | ActuatorFailed(failed: Action)
    | ListenerStarted(path: string)
    | NoInputDevice
    | LoopExited

  datatype Step = Log(note: Note) | Do(action: Action)

  predicate IsKeyDown(ev: KeyEvent)
  {
    ev.kind == EV_KEY && ev.value == KEY_DOWN
  }

  predicate IsTrigger(ev: KeyEvent)
  {
    IsKeyDown(ev) && ev.code == TRIGGER_CODE
  }

  /** The actuator call a step makes, if any. */
  function StepAction(s: Step): seq<Action>
  {
    match s
    case Log(_) => []
    case Do(a) => [a]
  }

  /** The actuator calls of a trace, in order, log lines dropped. */
  function Actions(t: seq<Step>): (r: seq<Action>)
    ensures |r| <= |t|
  {
    if t == [] then [] else StepAction(t[0]) + Actions(t[1..])
  }

  lemma {:induction false} ActionsAppend(a: seq<Step>, b: seq<Step>)
    ensures Actions(a + b) == Actions(a) + Actions(b)
  {
    if a == [] {
      assert a + b == b;
    } else {
      var ab := a + b;
      assert ab[0] == a[0] && ab[1..] == a[1..] + b;
      ActionsAppend(a[1..], b);
      calc {
        Actions(ab);
        StepAction(a[0]) + Actions(a[1..] + b);
        StepAction(a[0]) + (Actions(a[1..]) + Actions(b));
        { SeqAssoc(StepAction(a[0]), Actions(a[1..]), Actions(b)); }
        (StepAction(a[0]) + Actions(a[1..])) + Actions(b);
      }
    }
  }

  lemma ActionsOne(x: Step)
    ensures Actions([x]) == StepAction(x)
  {
    assert [x][1..] == [];
  }

  lemma ActionsThree(x: Step, y: Step, z: Step)
    ensures Actions([x, y, z]) == StepAction(x) + StepAction(y) + StepAction(z)
  {
    ActionsOne(x); ActionsOne(y); ActionsOne(z);
    assert [x, y, z] == [x] + [y] + [z];
    ActionsAppend([x] + [y], [z]);
    ActionsAppend([x], [y]);
  }

  lemma ActionsFour(w: Step, x: Step, y: Step, z: Step)
    ensures Actions([w, x, y, z]) == StepAction(w) + StepAction(x) + StepAction(y) + StepAction(z)
  {
    ActionsOne(w);
    ActionsThree(x, y, z);
    assert [w, x, y, z] == [w] + [x, y, z];
    ActionsAppend([w], [x, y, z]);
  }

  // ------------------------------------------------------------ one event

  /** The sequence run when Windows answers the probe. */
  function ShutdownSequence(ports: Ports): seq<Step>
  {
    [Log(HostRunning), Do(SendShutdown), Do(Delay(SHUTDOWN_SETTLE_MS)), Do(SerialSend(CMD_OFF, ports.projector))]
  }

  /** The sequence run when it does not. */
  function WakeSequence(ports: Ports): seq<Step>
  {
    [Log(HostNotRunning), Do(Wake), Do(SerialSend(CMD_ON, ports.projector))]
  }

  /** What the loop body does with one event, before any actuator has had
      the chance to fail; `probe` is what `ping` would give if called. */
  function Plan(ev: KeyEvent, probe: Liveness.ProbeOutput, ports: Ports): seq<Step>
  {
    if !IsKeyDown(ev) then []
    else if ev.code != TRIGGER_CODE then [Log(KeyReceived(ev.code))]
    else
      Announce(ev.code, ports) + ProbeNote(probe) + Decide(Liveness.IsWindowsRunning(probe), ports)
  }

  /** The power key's log lines and the buzzer pulse. */
  function Announce(code: int, ports: Ports): seq<Step>
  {
    [Log(KeyReceived(code)), Log(TriggerReceived), Do(Buzz(BUZZ_MS, ports.buzzer))]
  }

  /** The line `is_windows_running` logs when `ping` raised. */
  function ProbeNote(probe: Liveness.ProbeOutput): seq<Step>
  {
    if probe.Raised? then [Log(ProbeFailed)] else []
  }

  /** The branch taken on the probe's verdict. */
  function Decide(up: bool, ports: Ports): seq<Step>
  {
    if up then ShutdownSequence(ports) else WakeSequence(ports)
  }

  lemma TriggerActions(ev: KeyEvent, probe: Liveness.ProbeOutput, ports: Ports)
    requires IsTrigger(ev)
    ensures Actions(Plan(ev, probe, ports))
              == [Buzz(BUZZ_MS, ports.buzzer)] + Actions(Decide(Liveness.IsWindowsRunning(probe), ports))
  {
    var head, note := Announce(ev.code, ports), ProbeNote(probe);
    var tail := Decide(Liveness.IsWindowsRunning(probe), ports);
    ActionsAppend(head + note, tail);
    ActionsAppend(head, note);
    AnnounceActions(ev.code, ports);
    ProbeNoteActions(probe);
  }

  lemma AnnounceActions(code: int, ports: Ports)
    ensures Actions(Announce(code, ports)) == [Buzz(BUZZ_MS, ports.buzzer)]
  {
    var h := Announce(code, ports);
    ActionsThree(h[0], h[1], h[2]);
    assert h == [h[0], h[1], h[2]];
  }

  lemma ProbeNoteActions(probe: Liveness.ProbeOutput)
    ensures Actions(ProbeNote(probe)) == []
  {
    if probe.Raised? {
      ActionsOne(Log(ProbeFailed));
    }
  }

  lemma DecideActions(up: bool, ports: Ports)
    ensures up ==> Actions(Decide(up, ports))
                     == [SendShutdown, Delay(SHUTDOWN_SETTLE_MS), SerialSend(CMD_OFF, ports.projector)]
    ensures !up ==> Actions(Decide(up, ports)) == [Wake, SerialSend(CMD_ON, ports.projector)]
  {
    var t := Decide(up, ports);
    if up {
      ActionsFour(t[0], t[1], t[2], t[3]);
      assert t == [t[0], t[1], t[2], t[3]];
    } else {
      ActionsThree(t[0], t[1], t[2]);
      assert t == [t[0], t[1], t[2]];
    }
  }

  /** The actuator calls of each branch of the loop body, and no others:
      nothing for events other than key-down, a log line but nothing else
      for other keys, and for the power key the buzzer followed by either
      shutdown-wait-projector-off or wake-projector-on. */
  lemma PlanActions(ev: KeyEvent, probe: Liveness.ProbeOutput, ports: Ports)
    ensures !IsKeyDown(ev) ==> Plan(ev, probe, ports) == []
    ensures IsKeyDown(ev) && ev.code != TRIGGER_CODE ==>
      Plan(ev, probe, ports) == [Log(KeyReceived(ev.code))] && Actions(Plan(ev, probe, ports)) == []
    ensures IsTrigger(ev) && Liveness.IsWindowsRunning(probe) ==>
      Actions(Plan(ev, probe, ports))
        == [Buzz(BUZZ_MS, ports.buzzer), SendShutdown, Delay(SHUTDOWN_SETTLE_MS), SerialSend(CMD_OFF, ports.projector)]
    ensures IsTrigger(ev) && !Liveness.IsWindowsRunning(probe) ==>
      Actions(Plan(ev, probe, ports))
        == [Buzz(BUZZ_MS, ports.buzzer), Wake, SerialSend(CMD_ON, ports.projector)]
  {
    if IsTrigger(ev) {
      TriggerActions(ev, probe, ports);
      DecideActions(Liveness.IsWindowsRunning(probe), ports);
    } else if IsKeyDown(ev) {
      ActionsOne(Log(KeyReceived(ev.code)));
    }
  }

  /** Which branch ran can be read off the actuator calls, in both
      directions: a shutdown datagram is sent exactly when the power key
      went down and Windows answered, a wake packet exactly when it went
      down and Windows did not, and the two never occur together. */
  lemma PlanBranches(ev: KeyEvent, probe: Liveness.ProbeOutput, ports: Ports)
    ensures Actions(Plan(ev, probe, ports)) != [] <==> IsTrigger(ev)
    ensures SendShutdown in Actions(Plan(ev, probe, ports)) <==> IsTrigger(ev) && Liveness.IsWindowsRunning(probe)
    ensures Wake in Actions(Plan(ev, probe, ports)) <==> IsTrigger(ev) && !Liveness.IsWindowsRunning(probe)
    ensures SerialSend(CMD_OFF, ports.projector) in Actions(Plan(ev, probe, ports)) <==> SendShutdown in Actions(Plan(ev, probe, ports))
    ensures SerialSend(CMD_ON, ports.projector) in Actions(Plan(ev, probe, ports)) <==> Wake in Actions(Plan(ev, probe, ports))
  {
    PlanActions(ev, probe, ports);
    assert CMD_ON != CMD_OFF by { assert CMD_ON[6] != CMD_OFF[6]; }
  }

  /** The two projector frames: eight bytes each, equal except at index 6,
      the power digit ('1' for on, '0' for off). */
  lemma ProjectorFrames()
    ensures |CMD_ON| == |CMD_OFF| == 8
    ensures forall i | 0 <= i < 8 && i != 6 :: CMD_ON[i] == CMD_OFF[i]
    ensures CMD_ON[6] == 0x31 && CMD_OFF[6] == 0x30
  {
  }

  // ------------------------------------------------------ fail-soft actuators

  /** Every actuator but the sleep catches its own exceptions and writes one
      log line, success or failure; `time.sleep` is not guarded. */
  predicate IsActuator(a: Action)
  {
    !a.Delay?
  }

  /** One planned step carried out; `raised` says whether the actuator's
      body threw. */
  function Execute(s: Step, raised: bool): seq<Step>
  {
    match s
    case Log(_) => [s]
    case Do(a) =>
      if !IsActuator(a) then [s]
      else if raised then [s, Log(ActuatorFailed(a))]
      else [s, Log(ActuatorDone(a))]
  }

  /** A plan carried out from position `at` on; `raises` holds the
      positions in the plan whose actuator throws. */
  function Perform(plan: seq<Step>, raises: set<nat>, at: nat): seq<Step>
  {
    if plan == [] then []
    else Execute(plan[0], at in raises) + Perform(plan[1..], raises, at + 1)
  }

  /** Actuators fail soft: whichever of them throw, every planned call is
      still made, in the planned order. */
  lemma {:induction false} PerformKeepsActions(plan: seq<Step>, raises: set<nat>, at: nat)
    ensures Actions(Perform(plan, raises, at)) == Actions(plan)
  {
    if plan != [] {
      var e := Execute(plan[0], at in raises);
      PerformKeepsActions(plan[1..], raises, at + 1);
      ActionsAppend(e, Perform(plan[1..], raises, at + 1));
      ExecuteKeepsAction(plan[0], at in raises);
    }
  }

  lemma ExecuteKeepsAction(s: Step, raised: bool)
    ensures Actions(Execute(s, raised)) == StepAction(s)
  {
    var e := Execute(s, raised);
    if |e| == 1 {
      ActionsOne(e[0]);
    } else {
      assert e == [e[0]] + [e[1]];
      ActionsAppend([e[0]], [e[1]]);
      ActionsOne(e[0]);
      ActionsOne(e[1]);
    }
  }

  /** Each actuator call reports back exactly once, whether it failed or not. */
  lemma {:induction false} PerformReportsEveryCall(plan: seq<Step>, raises: set<nat>, at: nat)
    ensures Count(Perform(plan, raises, at), IsReport)
              == Count(Actions(plan), IsActuator) + Count(plan, IsReport)
  {
    if plan != [] {
      var e := Execute(plan[0], at in raises);
      PerformReportsEveryCall(plan[1..], raises, at + 1);
      CountAppend(e, Perform(plan[1..], raises, at + 1), IsReport);
      CountAppend(StepAction(plan[0]), Actions(plan[1..]), IsActuator);
      assert plan == [plan[0]] + plan[1..];
      CountAppend([plan[0]], plan[1..], IsReport);
      assert [plan[0]][..0] == [];
      ExecuteReports(plan[0], at in raises);
    }
  }

  lemma ExecuteReports(s: Step, raised: bool)
    ensures Count(Execute(s, raised), IsReport) == Count(StepAction(s), IsActuator) + (if IsReport(s) then 1 else 0)
  {
    var e := Execute(s, raised);
    assert [s][..0] == [];
    if |e| == 2 { assert e[..1] == [s]; }
    if s.Do? { assert [s.action][..0] == []; }
  }

  /** A log line reporting an actuator's outcome. */
  predicate IsReport(s: Step)
  {
    s.Log? && (s.note.ActuatorDone? || s.note.ActuatorFailed?)
  }

  predicate IsShutdownCall(a: Action)
  {
    a.SendShutdown?
  }

  /** The success line `send_shutdown_packet` writes once `sendto` has
      returned: the datagram is on the wire. */
  predicate IsShutdownSent(s: Step)
  {
    s == Log(ActuatorDone(SendShutdown))
  }

  /** The failure line it writes instead when the socket or `sendto`
      raised: nothing was sent. */
  predicate IsShutdownLost(s: Step)
  {
    s == Log(ActuatorFailed(SendShutdown))
  }

  /** Every shutdown call ends in exactly one of the two lines, and a call
      whose position is not among the raising ones always ends in success. */
  lemma ExecuteShutdownOutcome(s: Step, raised: bool)
    ensures Count(Execute(s, raised), IsShutdownSent) + Count(Execute(s, raised), IsShutdownLost)
              == Count(StepAction(s), IsShutdownCall) + Count([s], IsShutdownSent) + Count([s], IsShutdownLost)
    ensures !raised ==> Count(Execute(s, raised), IsShutdownLost) == Count([s], IsShutdownLost)
  {
    var e := Execute(s, raised);
    assert [s][..0] == [];
    if |e| == 2 { assert e[..1] == [s]; }
    if s.Do? { assert [s.action][..0] == []; }
  }

  /** Counting over a performed plan splits into its first step carried
      out and the rest of the plan carried out. */
  lemma PerformCount(plan: seq<Step>, raises: set<nat>, at: nat, p: Step -> bool)
    requires plan != []
    ensures Count(Perform(plan, raises, at), p)
              == Count(Execute(plan[0], at in raises), p) + Count(Perform(plan[1..], raises, at + 1), p)
  {
    CountAppend(Execute(plan[0], at in raises), Perform(plan[1..], raises, at + 1), p);
  }

  /** Over a whole plan: the shutdown calls made equal the success lines
      plus the failure lines they produce, and with no actuator throwing
      there is no failure line at all. */
  lemma {:induction false} PerformShutdownOutcomes(plan: seq<Step>, raises: set<nat>, at: nat)
    ensures Count(Perform(plan, raises, at), IsShutdownSent) + Count(Perform(plan, raises, at), IsShutdownLost)
              == Count(Actions(plan), IsShutdownCall) + Count(plan, IsShutdownSent) + Count(plan, IsShutdownLost)
    ensures raises == {} ==> Count(Perform(plan, raises, at), IsShutdownLost) == Count(plan, IsShutdownLost)
  {
    if plan != [] {
      PerformShutdownOutcomes(plan[1..], raises, at + 1);
      PerformCount(plan, raises, at, IsShutdownSent);
      PerformCount(plan, raises, at, IsShutdownLost);
      CountAppend(StepAction(plan[0]), Actions(plan[1..]), IsShutdownCall);
      CountFront(plan, IsShutdownSent);
      CountFront(plan, IsShutdownLost);
      ExecuteShutdownOutcome(plan[0], at in raises);
    }
  }

  // ------------------------------------------------- per-position outcomes

  /** A planned step that is a guarded actuator call, so writes an outcome
      line after itself. */
  predicate IsGuardedCall(s: Step)
  {
    s.Do? && IsActuator(s.action)
  }

  /** Where step `k` of a plan lands in the performed trace: after the `k`
      earlier steps and the outcome lines of the guarded calls among them. */
  function TracePos(plan: seq<Step>, k: nat): nat
    requires k <= |plan|
  {
    k + Count(plan[..k], IsGuardedCall)
  }

  /** Step `k` of a plan appears at its trace position. A guarded call is
      followed at once by its failure line when its position raises, and
      by its success line when it does not. */
  lemma {:induction false} PerformAt(plan: seq<Step>, raises: set<nat>, at: nat, k: nat)
    requires k < |plan|
    ensures TracePos(plan, k) < |Perform(plan, raises, at)|
    ensures Perform(plan, raises, at)[TracePos(plan, k)] == plan[k]
    ensures IsGuardedCall(plan[k]) && at + k in raises ==>
              && TracePos(plan, k) + 1 < |Perform(plan, raises, at)|
              && Perform(plan, raises, at)[TracePos(plan, k) + 1] == Log(ActuatorFailed(plan[k].action))
    ensures IsGuardedCall(plan[k]) && at + k !in raises ==>
              && TracePos(plan, k) + 1 < |Perform(plan, raises, at)|
              && Perform(plan, raises, at)[TracePos(plan, k) + 1] == Log(ActuatorDone(plan[k].action))
  {
    var e, rest := Execute(plan[0], at in raises), Perform(plan[1..], raises, at + 1);
    assert Perform(plan, raises, at) == e + rest;
    assert |e| == 1 + (if IsGuardedCall(plan[0]) then 1 else 0);
    if k == 0 {
      assert plan[..0] == [];
    } else {
      PerformAt(plan[1..], raises, at + 1, k - 1);
      TracePosStep(plan, k);
    }
  }

  /** The performed trace holds nothing but the planned steps and one
      outcome line per guarded call: its length is the position just past
      the last step. */
  lemma {:induction false} PerformLength(plan: seq<Step>, raises: set<nat>, at: nat)
    ensures |Perform(plan, raises, at)| == TracePos(plan, |plan|)
  {
    if plan == [] {
      assert plan[..0] == [];
    } else {
      PerformLength(plan[1..], raises, at + 1);
      assert plan[..|plan|] == plan;
      assert plan[1..][..|plan| - 1] == plan[1..];
      CountFront(plan, IsGuardedCall);
    }
  }

  /** The position of step `k` is the position of step `k - 1` of the rest
      of the plan, after the first step and its outcome line, if any. */
  lemma TracePosStep(plan: seq<Step>, k: nat)
    requires 0 < k < |plan|
    ensures TracePos(plan, k) == 1 + (if IsGuardedCall(plan[0]) then 1 else 0) + TracePos(plan[1..], k - 1)
  {
    assert plan[..k][1..] == plan[1..][..k - 1];
    CountFront(plan[..k], IsGuardedCall);
  }

  /** Each planned step paired with whether its position raises. */
  function Attempts(plan: seq<Step>, raises: set<nat>, at: nat): (r: seq<(Step, bool)>)
    ensures |r| == |plan|
    ensures forall k | 0 <= k < |plan| :: r[k] == (plan[k], at + k in raises)
  {
    if plan == [] then [] else [(plan[0], at in raises)] + Attempts(plan[1..], raises, at + 1)
  }

  /** A shutdown call whose position does not raise. */
  predicate IsKeptShutdown(x: (Step, bool))
  {
    x.0 == Do(SendShutdown) && !x.1
  }

  /** A shutdown call whose position raises. */
  predicate IsRaisedShutdown(x: (Step, bool))
  {
    x.0 == Do(SendShutdown) && x.1
  }

  /** The success lines of a performed plan are one per shutdown call at a
      position that does not raise, and the failure lines one per shutdown
      call at a position that does (beyond any such lines already in the
      plan). */
  lemma {:induction false} PerformShutdownPositions(plan: seq<Step>, raises: set<nat>, at: nat)
    ensures Count(Perform(plan, raises, at), IsShutdownSent)
              == Count(plan, IsShutdownSent) + Count(Attempts(plan, raises, at), IsKeptShutdown)
    ensures Count(Perform(plan, raises, at), IsShutdownLost)
              == Count(plan, IsShutdownLost) + Count(Attempts(plan, raises, at), IsRaisedShutdown)
  {
    if plan != [] {
      var tries := Attempts(plan, raises, at);
      PerformShutdownPositions(plan[1..], raises, at + 1);
      PerformCount(plan, raises, at, IsShutdownSent);
      PerformCount(plan, raises, at, IsShutdownLost);
      CountFront(plan, IsShutdownSent);
      CountFront(plan, IsShutdownLost);
      assert tries[1..] == Attempts(plan[1..], raises, at + 1);
      CountFront(tries, IsKeptShutdown);
      CountFront(tries, IsRaisedShutdown);
      ExecuteShutdownPosition(plan[0], at in raises);
    }
  }

  /** One step carried out: a shutdown call adds a success line exactly
      when it does not raise, and a failure line exactly when it does. */
  lemma ExecuteShutdownPosition(s: Step, raised: bool)
    ensures Count(Execute(s, raised), IsShutdownSent)
              == (if IsShutdownSent(s) then 1 else 0) + (if IsKeptShutdown((s, raised)) then 1 else 0)
    ensures Count(Execute(s, raised), IsShutdownLost)
              == (if IsShutdownLost(s) then 1 else 0) + (if IsRaisedShutdown((s, raised)) then 1 else 0)
  {
    var e := Execute(s, raised);
    assert [s][..0] == [];
    if |e| == 2 { assert e[..1] == [s]; }
  }

  /** The same counts as sets of plan positions. */
  lemma ShutdownPositionSets(plan: seq<Step>, raises: set<nat>, at: nat)
    ensures Count(Attempts(plan, raises, at), IsKeptShutdown)
              == |set k | 0 <= k < |plan| && plan[k] == Do(SendShutdown) && at + k !in raises|
    ensures Count(Attempts(plan, raises, at), IsRaisedShutdown)
              == |set k | 0 <= k < |plan| && plan[k] == Do(SendShutdown) && at + k in raises|
  {
    var tries := Attempts(plan, raises, at);
    CountIsIndices(tries, IsKeptShutdown);
    CountIsIndices(tries, IsRaisedShutdown);
    assert Indices(tries, IsKeptShutdown)
             == set k | 0 <= k < |plan| && plan[k] == Do(SendShutdown) && at + k !in raises;
    assert Indices(tries, IsRaisedShutdown)
             == set k | 0 <= k < |plan| && plan[k] == Do(SendShutdown) && at + k in raises;
  }

  /** The loop body never writes an actuator's outcome line itself; only
      the actuators do. */
  lemma PlanHasNoReports(ev: KeyEvent, probe: Liveness.ProbeOutput, ports: Ports)
    ensures forall i | 0 <= i < |Plan(ev, probe, ports)| :: !IsReport(Plan(ev, probe, ports)[i])
  {
  }

  // ------------------------------------------------------------ the loop

  /** What `read_loop` yields next: an event, with the probe output and the
      failing actuators that go with handling it, or an exception from the
      device, which ends `main`. */
  datatype Input =
    | Received(event: KeyEvent, probe: Liveness.ProbeOutput, raises: set<nat>)
    | ReadFailed

  function Handle(i: Input, ports: Ports): seq<Step>
    requires i.Received?
  {
    Perform(Plan(i.event, i.probe, ports), i.raises, 0)
  }

  /** An event that is not a key press is handled without writing anything
      or calling anything, whichever actuators would throw. */
  lemma IgnoredEventWritesNothing(ev: KeyEvent, probe: Liveness.ProbeOutput, raises: set<nat>, ports: Ports)
    requires !IsKeyDown(ev)
    ensures Handle(Received(ev, probe, raises), ports) == []
  {
  }

  /** The `for event in dev.read_loop()` loop inside `main`'s `try`. */
  function Run(inputs: seq<Input>, ports: Ports): seq<Step>
  {
    if inputs == [] then []
    else match inputs[0]
      case ReadFailed => [Log(LoopExited)]
      case Received(_, _, _) => Handle(inputs[0], ports) + Run(inputs[1..], ports)
  }

  predicate NoReadFailure(inputs: seq<Input>)
  {
    forall k | 0 <= k < |inputs| :: inputs[k].Received?
  }

  /** Events are handled one after another, each to completion: the trace
      of a stream is the trace of a prefix followed by the trace of the
      rest. */
  lemma {:induction false} RunAppend(a: seq<Input>, b: seq<Input>, ports: Ports)
    requires NoReadFailure(a)
    ensures Run(a + b, ports) == Run(a, ports) + Run(b, ports)
  {
    if a == [] {
      assert a + b == b;
    } else {
      var ab := a + b;
      assert ab[0] == a[0] && ab[1..] == a[1..] + b;
      RunAppend(a[1..], b, ports);
      assert Run(ab, ports) == Handle(a[0], ports) + Run(a[1..] + b, ports);
    }
  }

  /** No actuator throws while any event is handled. */
  predicate NoActuatorFails(inputs: seq<Input>)
  {
    forall k | 0 <= k < |inputs| :: inputs[k].Received? ==> inputs[k].raises == {}
  }

  /** Over any run of the loop, each shutdown call either reaches the wire
      (its success line) or fails (its failure line), never both and never
      neither; when no actuator throws, every call reaches the wire. */
  lemma {:induction false} RunShutdownOutcomes(inputs: seq<Input>, ports: Ports)
    ensures Count(Run(inputs, ports), IsShutdownSent) + Count(Run(inputs, ports), IsShutdownLost)
              == Count(Actions(Run(inputs, ports)), IsShutdownCall)
    ensures NoActuatorFails(inputs) ==> Count(Run(inputs, ports), IsShutdownLost) == 0
  {
    if inputs != [] {
      match inputs[0]
      case ReadFailed =>
        ActionsOne(Log(LoopExited));
      case Received(ev, probe, raises) =>
        var h, rest := Handle(inputs[0], ports), Run(inputs[1..], ports);
        assert Run(inputs, ports) == h + rest;
        RunShutdownOutcomes(inputs[1..], ports);
        HandleShutdownOutcomes(inputs[0], ports);
        CountAppend(h, rest, IsShutdownSent);
        CountAppend(h, rest, IsShutdownLost);
        ActionsAppend(h, rest);
        CountAppend(Actions(h), Actions(rest), IsShutdownCall);
        if NoActuatorFails(inputs) {
          assert inputs[0].raises == {};
          assert NoActuatorFails(inputs[1..]) by {
            forall k | 0 <= k < |inputs[1..]| ensures inputs[1..][k].Received? ==> inputs[1..][k].raises == {} {
              assert inputs[1..][k] == inputs[k + 1];
            }
          }
        }
    }
  }

  /** One handled event: its shutdown calls each end in a success or a
      failure line, and in a success line when nothing raises. */
  lemma HandleShutdownOutcomes(i: Input, ports: Ports)
    requires i.Received?
    ensures Count(Handle(i, ports), IsShutdownSent) + Count(Handle(i, ports), IsShutdownLost)
              == Count(Actions(Handle(i, ports)), IsShutdownCall)
    ensures i.raises == {} ==> Count(Handle(i, ports), IsShutdownLost) == 0
  {
    var plan := Plan(i.event, i.probe, ports);
    PlanHasNoReports(i.event, i.probe, ports);
    assert Count(plan, IsShutdownSent) == 0 && Count(plan, IsShutdownLost) == 0;
    PerformShutdownOutcomes(plan, i.raises, 0);
    PerformKeepsActions(plan, i.raises, 0);
  }

  /** Every planned step of every event the loop handles, paired with
      whether its position raises, up to the first read failure. */
  function RunAttempts(inputs: seq<Input>, ports: Ports): seq<(Step, bool)>
  {
    if inputs == [] then []
    else match inputs[0]
      case ReadFailed => []
      case Received(ev, probe, raises) => Attempts(Plan(ev, probe, ports), raises, 0) + RunAttempts(inputs[1..], ports)
  }

  /** Over any run of the loop, the success lines of the shutdown call are
      one per shutdown call at a position that does not raise, and its
      failure lines one per shutdown call at a position that does. */
  lemma {:induction false} RunShutdownPositions(inputs: seq<Input>, ports: Ports)
    ensures Count(Run(inputs, ports), IsShutdownSent) == Count(RunAttempts(inputs, ports), IsKeptShutdown)
    ensures Count(Run(inputs, ports), IsShutdownLost) == Count(RunAttempts(inputs, ports), IsRaisedShutdown)
  {
    if inputs != [] {
      match inputs[0]
      case ReadFailed =>
      case Received(ev, probe, raises) =>
        var plan := Plan(ev, probe, ports);
        var h, rest := Handle(inputs[0], ports), Run(inputs[1..], ports);
        var tries, more := Attempts(plan, raises, 0), RunAttempts(inputs[1..], ports);
        assert Run(inputs, ports) == h + rest;
        assert RunAttempts(inputs, ports) == tries + more;
        RunShutdownPositions(inputs[1..], ports);
        PlanHasNoReports(ev, probe, ports);
        assert Count(plan, IsShutdownSent) == 0 && Count(plan, IsShutdownLost) == 0;
        PerformShutdownPositions(plan, raises, 0);
        CountAppend(h, rest, IsShutdownSent);
        CountAppend(h, rest, IsShutdownLost);
        CountAppend(tries, more, IsKeptShutdown);
        CountAppend(tries, more, IsRaisedShutdown);
    }
  }

  /** A device error ends the loop with one log line; nothing after it is
      handled. */
  lemma RunStopsAtReadFailure(a: seq<Input>, b: seq<Input>, ports: Ports)
    requires NoReadFailure(a)
    ensures Run(a + [ReadFailed] + b, ports) == Run(a, ports) + [Log(LoopExited)]
  {
    RunAppend(a, [ReadFailed] + b, ports);
    assert a + [ReadFailed] + b == a + ([ReadFailed] + b);
  }

  /** Sequence-level ordering the loop keeps across any number of events:
      the projector is switched off only right after a shutdown datagram
      and the full settle delay, and every wake packet is followed at once
      by switching the projector on. */
  predicate OrderlySequences(calls: seq<Action>, ports: Ports)
  {
    && (forall i | 0 <= i < |calls| && calls[i] == SerialSend(CMD_OFF, ports.projector) ::
          i >= 2 && calls[i - 1] == Delay(SHUTDOWN_SETTLE_MS) && calls[i - 2] == SendShutdown)
    && (forall i | 0 <= i < |calls| && calls[i] == Wake ::
          i + 1 < |calls| && calls[i + 1] == SerialSend(CMD_ON, ports.projector))
  }

  lemma OrderlyAppend(a: seq<Action>, b: seq<Action>, ports: Ports)
    requires OrderlySequences(a, ports) && OrderlySequences(b, ports)
    ensures OrderlySequences(a + b, ports)
  {
    var ab := a + b;
    forall i | 0 <= i < |ab| && ab[i] == SerialSend(CMD_OFF, ports.projector)
      ensures i >= 2 && ab[i - 1] == Delay(SHUTDOWN_SETTLE_MS) && ab[i - 2] == SendShutdown
    {
      if i >= |a| { assert b[i - |a|] == ab[i]; }
    }
    forall i | 0 <= i < |ab| && ab[i] == Wake
      ensures i + 1 < |ab| && ab[i + 1] == SerialSend(CMD_ON, ports.projector)
    {
      if i >= |a| { assert b[i - |a|] == ab[i]; }
    }
  }

  /** Each handled event on its own already keeps the ordering. */
  lemma PlanIsOrderly(ev: KeyEvent, probe: Liveness.ProbeOutput, ports: Ports)
    ensures OrderlySequences(Actions(Plan(ev, probe, ports)), ports)
  {
    PlanActions(ev, probe, ports);
    assert CMD_ON != CMD_OFF by { assert CMD_ON[6] != CMD_OFF[6]; }
    var calls := Actions(Plan(ev, probe, ports));
    if IsTrigger(ev) {
      forall i | 0 <= i < |calls| && calls[i] == SerialSend(CMD_OFF, ports.projector)
        ensures i >= 2 && calls[i - 1] == Delay(SHUTDOWN_SETTLE_MS) && calls[i - 2] == SendShutdown
      {
        assert i == |calls| - 1;
      }
      forall i | 0 <= i < |calls| && calls[i] == Wake
        ensures i + 1 < |calls| && calls[i + 1] == SerialSend(CMD_ON, ports.projector)
      {
        assert i == 1;
      }
    }
  }

  lemma {:induction false} RunIsOrderly(inputs: seq<Input>, ports: Ports)
    ensures OrderlySequences(Actions(Run(inputs, ports)), ports)
  {
    if inputs != [] {
      match inputs[0]
      case ReadFailed =>
        ActionsOne(Log(LoopExited));
      case Received(ev, probe, raises) =>
        var h := Handle(inputs[0], ports);
        RunIsOrderly(inputs[1..], ports);
        ActionsAppend(h, Run(inputs[1..], ports));
        PerformKeepsActions(Plan(ev, probe, ports), raises, 0);
        PlanIsOrderly(ev, probe, ports);
        OrderlyAppend(Actions(h), Actions(Run(inputs[1..], ports)), ports);
    }
  }

  // ------------------------------------------------------------ main

  /** `main` after resolution: exit if there is no input path, else open
      the input device (which may throw) and run the loop. */
  function Start(setup: Discovery.Setup, opens: bool, inputs: seq<Input>): seq<Step>
  {
    if setup.devicePath == "" then [Log(NoInputDevice)]
    else if !opens then [Log(LoopExited)]
    else [Log(ListenerStarted(setup.devicePath))] + Run(inputs, Ports(setup.projectorPort, setup.buzzerPort))
  }

  /** `main`: resolve the three paths, then start. */
  function Main(devices: seq<Discovery.InputCandidate>, serialPorts: seq<Discovery.PortInfo>,
                opens: bool, inputs: seq<Input>): seq<Step>
  {
    Start(Discovery.Resolve(devices, serialPorts), opens, inputs)
  }

  lemma {:induction false} RunNeverReportsMissingDevice(inputs: seq<Input>, ports: Ports)
    ensures Log(NoInputDevice) !in Run(inputs, ports)
  {
    if inputs != [] && inputs[0].Received? {
      RunNeverReportsMissingDevice(inputs[1..], ports);
      PerformHasNoMissingDevice(Plan(inputs[0].event, inputs[0].probe, ports), inputs[0].raises, 0);
    }
  }

  lemma {:induction false} PerformHasNoMissingDevice(plan: seq<Step>, raises: set<nat>, at: nat)
    requires Log(NoInputDevice) !in plan
    ensures Log(NoInputDevice) !in Perform(plan, raises, at)
  {
    if plan != [] {
      assert plan[0] in plan;
      assert forall x | x in plan[1..] :: x in plan;
      PerformHasNoMissingDevice(plan[1..], raises, at + 1);
    }
  }

  /** With a non-empty input path, `main` never takes its "no input device,
      exit" branch, and the listener starts on that path whenever the device
      opens. */
  lemma StartNeverReportsMissingDevice(setup: Discovery.Setup, opens: bool, inputs: seq<Input>)
    requires setup.devicePath != ""
    ensures Log(NoInputDevice) !in Start(setup, opens, inputs)
    ensures opens ==> Start(setup, opens, inputs)[0] == Log(ListenerStarted(setup.devicePath))
  {
    RunNeverReportsMissingDevice(inputs, Ports(setup.projectorPort, setup.buzzerPort));
  }

  /** Every resolved path has a non-empty fallback, so that is always the
      case: the line for a missing input device never appears. */
  lemma MainNeverReportsMissingDevice(devices: seq<Discovery.InputCandidate>, serialPorts: seq<Discovery.PortInfo>,
                                      opens: bool, inputs: seq<Input>)
    ensures Log(NoInputDevice) !in Main(devices, serialPorts, opens, inputs)
  {
    StartNeverReportsMissingDevice(Discovery.Resolve(devices, serialPorts), opens, inputs);
  }
}

=== FILE: seqs.dfy ===
/** Sequence vocabulary shared by the bridge model: optional values,
    counting by a predicate, first-match search and infix containment
    (Python's `needle in haystack` on `str` and `bytes`). */
module Seqs {

  /** Python's `None`-or-value results. */
  datatype Option<+T> = None | Some(value: T)

  // ---------------------------------------------------------------- counting

  /** Number of elements of `s` satisfying `p`. */
  function Count<T>(s: seq<T>, p: T -> bool): (n: nat)
    ensures n <= |s|
    ensures n == 0 <==> forall i | 0 <= i < |s| :: !p(s[i])
  {
    if s == [] then 0
    else Count(s[..|s| - 1], p) + (if p(s[|s| - 1]) then 1 else 0)
  }

  /** The positions of `s` whose element satisfies `p`: an independent,
      non-recursive description of what `Count` counts. */
  function Indices<T>(s: seq<T>, p: T -> bool): set<int>
  {
    set i | 0 <= i < |s| && p(s[i])
  }

  lemma {:induction false} CountIsIndices<T>(s: seq<T>, p: T -> bool)
    ensures Count(s, p) == |Indices(s, p)|
  {
    if s != [] {
      var init, last := s[..|s| - 1], |s| - 1;
      CountIsIndices(init, p);
      assert Indices(init, p) == set i | 0 <= i < last && p(s[i]);
      if p(s[last]) {
        assert Indices(s, p) == Indices(init, p) + {last};
        assert last !in Indices(init, p);
      } else {
        assert Indices(s, p) == Indices(init, p);
      }
    }
  }

  lemma {:induction false} CountAppend<T>(a: seq<T>, b: seq<T>, p: T -> bool)
    ensures Count(a + b, p) == Count(a, p) + Count(b, p)
  {
    if b == [] {
      assert a + b == a;
    } else {
      CountAppend(a, b[..|b| - 1], p);
      assert (a + b)[..|a + b| - 1] == a + b[..|b| - 1];
    }
  }

  /** Counting from the front: the first element, then the rest. */
  lemma CountFront<T>(s: seq<T>, p: T -> bool)
    requires s != []
    ensures Count(s, p) == (if p(s[0]) then 1 else 0) + Count(s[1..], p)
  {
    assert s == [s[0]] + s[1..];
    CountAppend([s[0]], s[1..], p);
    assert [s[0]][..0] == [];
  }

  lemma SeqAssoc<T>(x: seq<T>, y: seq<T>, z: seq<T>)
    ensures x + (y + z) == (x + y) + z
  {
  }

  // ------------------------------------------------------------ first match

  /** `i` is the first position of `s` whose element satisfies `p`. */
  predicate IsFirstMatch<T>(s: seq<T>, p: T -> bool, i: int)
  {
    && 0 <= i < |s|
    && p(s[i])
    && forall j | 0 <= j < i :: !p(s[j])
  }

  /** An index one further along. */
  function Inc(r: Option<nat>): Option<nat>
  {
    match r
    case None => None
    case Some(k) => Some(k + 1)
  }

  /** Scans `s` from the front and stops at the first element satisfying
      `p`, the shape of a Python `for` loop with an early `return`. */
  function FirstIndex<T>(s: seq<T>, p: T -> bool): (r: Option<nat>)
    ensures r.Some? ==> IsFirstMatch(s, p, r.value)
    ensures r.None? <==> forall i | 0 <= i < |s| :: !p(s[i])
  {
    if s == [] then None
    else if p(s[0]) then Some(0)
    else Inc(FirstIndex(s[1..], p))
  }

  /** The search depends only on which elements pass the test. */
  lemma {:induction false} FirstIndexAgree<T>(s: seq<T>, p: T -> bool, q: T -> bool)
    requires forall x :: p(x) == q(x)
    ensures FirstIndex(s, p) == FirstIndex(s, q)
  {
    if s != [] {
      FirstIndexAgree(s[1..], p, q);
    }
  }

  /** Index `k` of a sequence after one element has been inserted at
      position `at`. */
  function ShiftFrom(r: Option<nat>, at: nat): Option<nat>
  {
    match r
    case None => None
    case Some(k) => Some(if k < at then k else k + 1)
  }

  /** Moving one step along commutes with the shift past an inserted element. */
  lemma IncShift(r: Option<nat>, at: nat)
    ensures Inc(ShiftFrom(r, at)) == ShiftFrom(Inc(r), at + 1)
  {
  }

  /** Elements that fail `p` are passed over: inserting one anywhere moves
      the first match but never changes which element it is. */
  lemma {:induction false} FirstIndexSkips<T>(a: seq<T>, x: T, b: seq<T>, p: T -> bool)
    requires !p(x)
    ensures FirstIndex(a + [x] + b, p) == ShiftFrom(FirstIndex(a + b, p), |a|)
  {
    var s := a + [x] + b;
    if a == [] {
      assert s[0] == x && s[1..] == b && a + b == b;
    } else {
      assert s[0] == a[0] && (a + b)[0] == a[0];
      if !p(a[0]) {
        assert s[1..] == a[1..] + [x] + b;
        assert (a + b)[1..] == a[1..] + b;
        FirstIndexSkips(a[1..], x, b, p);
        calc {
          FirstIndex(s, p);
          Inc(FirstIndex(a[1..] + [x] + b, p));
          Inc(ShiftFrom(FirstIndex(a[1..] + b, p), |a| - 1));
          { IncShift(FirstIndex(a[1..] + b, p), |a| - 1); }
          ShiftFrom(Inc(FirstIndex(a[1..] + b, p)), |a|);
          ShiftFrom(FirstIndex(a + b, p), |a|);
        }
      }
    }
  }

  /** The first element of `s` satisfying `p`. */
  function FirstMatch<T>(s: seq<T>, p: T -> bool): (r: Option<T>)
    ensures r.Some? ==> exists i :: IsFirstMatch(s, p, i) && s[i] == r.value
    ensures r.None? <==> forall i | 0 <= i < |s| :: !p(s[i])
  {
    match FirstIndex(s, p)
    case None => None
    case Some(k) => Some(s[k])
  }

  /** Elements that fail `p` are passed over: inserting one anywhere does
      not change which element is found first. */
  lemma FirstMatchSkips<T>(a: seq<T>, x: T, b: seq<T>, p: T -> bool)
    requires !p(x)
    ensures FirstMatch(a + [x] + b, p) == FirstMatch(a + b, p)
  {
    FirstIndexSkips(a, x, b, p);
    var s := a + [x] + b;
    match FirstIndex(a + b, p)
    case None =>
    case Some(k) =>
      if k < |a| {
        assert s[k] == (a + b)[k];
      } else {
        assert s[k + 1] == (a + b)[k];
      }
  }

  // --------------------------------------------------------------- infixes

  /** `n` occurs in `h` starting at position `i`. */
  predicate InfixAt<T(==)>(h: seq<T>, n: seq<T>, i: int)
  {
    0 <= i && i + |n| <= |h| && h[i..i + |n|] == n
  }

  /** Python's `n in h` for strings and byte strings. */
  predicate Contains<T(==)>(h: seq<T>, n: seq<T>)
  {
    exists i | 0 <= i <= |h| - |n| :: InfixAt(h, n, i)
  }

  /** Whatever surrounds an occurrence, the occurrence is found. */
  lemma ContainsSurrounded<T>(pre: seq<T>, n: seq<T>, post: seq<T>)
    ensures Contains(pre + n + post, n)
  {
    var h := pre + n + post;
    assert h[|pre|..|pre| + |n|] == n;
    assert InfixAt(h, n, |pre|);
  }

  /** An occurrence of an occurrence is an occurrence. */
  lemma ContainsTransitive<T>(h: seq<T>, m: seq<T>, n: seq<T>)
    requires Contains(h, m) && Contains(m, n)
    ensures Contains(h, n)
  {
    var i :| 0 <= i <= |h| - |m| && InfixAt(h, m, i);
    var j :| 0 <= j <= |m| - |n| && InfixAt(m, n, j);
    forall k | 0 <= k < |n|
      ensures h[i + j + k] == n[k]
    {
      assert m[j + k] == n[k];
      assert h[i + (j + k)] == m[j + k];
    }
    assert h[i + j..i + j + |n|] == n;
    assert InfixAt(h, n, i + j);
  }
}

=== FILE: text.dfy ===
/** Characters and bytes: the byte type, and the ASCII part of `str.lower`
    used for case-insensitive matching. */
module Text {
  import opened Seqs

  newtype byte = x: int | 0 <= x < 0x100

  /** `str.lower` on one character, for the ASCII letters. */
  function LowerChar(c: char): char
  {
    if 'A' <= c <= 'Z' then (c as int - 'A' as int + 'a' as int) as char else c
  }

  function Lower(s: string): (r: string)
    ensures |r| == |s|
    ensures forall i | 0 <= i < |s| :: r[i] == LowerChar(s[i])
  {
    if s == [] then [] else [LowerChar(s[0])] + Lower(s[1..])
  }

  /** Python's `keyword.lower() in text.lower()`. */
  predicate ContainsIgnoringCase(text: string, keyword: string)
  {
    Contains(Lower(text), Lower(keyword))
  }

  /** Lower-casing twice is lower-casing once, so a keyword that is already
      lower case matches exactly what its upper-case spelling matches. */
  lemma {:induction false} LowerIdempotent(s: string)
    ensures Lower(Lower(s)) == Lower(s)
    ensures forall text :: ContainsIgnoringCase(text, Lower(s)) == ContainsIgnoringCase(text, s)
  {
    forall i | 0 <= i < |s|
      ensures Lower(Lower(s))[i] == Lower(s)[i]
    {
      var c := s[i];
      if 'A' <= c <= 'Z' {
        assert 'a' <= LowerChar(c) <= 'z';
      }
    }
  }
}
